=== FILE: README.md ===
# Enterprise HR records: validation model

This project models the write-validation core of a small Django HR application.
The application keeps departments, positions, workers, each worker's
position history and vacation history. It also serves a few reports and handles
e-mail/password accounts.

The store is a record of immutable sequences, one per table, in the order the
database enumerates them. Each `save` is a pure function from the store and a
candidate row to either a refusal (`SaveError`) or the new store:

- `WorkerSave.SaveWorker` runs the checks of `Worker.save` in source order:
  1. the worker's position must resolve;
  2. every position with the same name must agree with the salary rule;
  3. the department must resolve;
  4. fewer than 20 workers may be stored in the department;
  5. fewer than 5 of them may have status `'vac'`.

  Then the row is written by id: an update when the id is stored, an insert otherwise.
- `VacationSave.SaveVacation` runs the checks of `VacHistory.save`:
  1. the worker and the named position must resolve;
  2. no position-history period of the worker that contains the start day may
     record a different position;
  3. every position named like the referenced one must grant exactly
     `num_of_days` days.

  Then the row is written by id.
- `Reports` holds the vacation summary (`vac_start`, `vac_end`, `days_sum`) and
  the department headcount. `Accounts` holds user creation, registration, login
  and user update.

Other modelling choices:

- Money is integer cents and dates are day numbers.
- The salary rule (`SalaryRule.ExpectedSalary`) is the base salary times
  1.012 to the power of the experience. It is computed exactly and rounded half-up to the cent.
- A foreign key that does not resolve makes Django raise when the related object
  is fetched. The model reports it as `NoSuchPosition`, `NoSuchDepartment` or
  `NoSuchWorker`, at the point where the source first dereferences it.
- E-mail normalisation, password hashing, credential lookup (`authenticate`)
  and token issuing are function parameters.
- The registration and update forms trim whitespace from both ends of every
  text field before the length checks, refuse a supplied field that is blank
  once trimmed, and pass the trimmed values on (`Accounts.Strip`).

Behaviour of the code worth knowing:

- The status values are the strings `'vac'` and `'not_vac'`.
- Position check: every covering period that records a different position rejects the vacation,
  whatever order the periods come in. See `OverlappingPeriodsRejectEveryPosition`.
- Vacation quota: a department with 4 workers on vacation still accepts a further worker on
  vacation. The quota only refuses once 5 stored workers are on vacation, and it
  ignores the candidate's own status. See `LastVacationPlaceLocksDepartment` and
  `QuotaIgnoresCandidateStatus`.

## Model

| member | source | states |
|---|---|---|
| `Records.Find` | djangotask/enterprise/models.py:97 | a reference resolves exactly when a row with that id is stored, and resolves to a stored row with that id |
| `Rows.Upsert` | djangotask/enterprise/models.py:119 | writing a row by id puts it in the table, keeps every row with another id, and adds nothing else; a new id is appended |
| `SalaryRule.ExpectedSalaryMonotone` | djangotask/enterprise/models.py:107-108 | for a non-negative base salary, more experience never gives a lower expected salary |
| `SalaryRule.ExpectedSalaryStep` | djangotask/enterprise/models.py:107-108 | one more year of experience never lowers a non-negative expected salary |
| `WorkerSave.HeadCount` | djangotask/enterprise/models.py:111 | the capacity count is at most the number of stored workers, and is 0 exactly when no stored worker belongs to the department |
| `WorkerSave.FirstSalaryMismatch` | djangotask/enterprise/models.py:106-110 | the salary loop fails exactly when some position of that name prescribes another salary; it reports the first such position's salary, which differs from the worker's |
| `WorkerSave.SaveWorker` | djangotask/enterprise/models.py:105-119 | the checks run in order salary, then department capacity, then vacation quota; each error is given exactly when the earlier checks pass and its own fails; a wrong-salary error carries the rule's salary for some position of that name, which differs from the worker's; success writes exactly this worker, leaves the other tables alone, and implies the salary equals the rule for the worker's own position |
| `WorkerSave.ScanVacationQuota` | djangotask/enterprise/models.py:113-118 | the counting loop with its early exit refuses exactly when at least 5 stored workers of the department are on vacation |
| `WorkerSave.VacCount` | djangotask/enterprise/models.py:113-118 | the quota count never exceeds the department's headcount, and is 0 exactly when no worker of the department has status `'vac'` |
| `WorkerSave.QuotaIgnoresCandidateStatus` | djangotask/enterprise/models.py:113-118 | the verdict of a worker save does not depend on the status the worker is saved with |
| `WorkerSave.FullQuotaBlocksReturnFromVacation` | djangotask/enterprise/models.py:113-118 | with 5 stored workers on vacation, any worker is refused, even one saved with status `'not_vac'` |
| `WorkerSave.OverwriteKeepsHeadCount` | djangotask/enterprise/models.py:111 | updating rows that stay in their department leaves every department's headcount unchanged |
| `WorkerSave.UpdateInFullDepartmentRefused` | djangotask/enterprise/models.py:111-112 | the capacity count includes the stored copy of the worker being updated, so an update in a full department is refused even though the headcount would stay 20 |
| `WorkerSave.LastPlaceFillsDepartment` | djangotask/enterprise/models.py:111-112 | the 20th worker is accepted and afterwards every save into that department is refused |
| `WorkerSave.LastVacationPlaceLocksDepartment` | djangotask/enterprise/models.py:113-118 | with 4 workers on vacation a new worker on vacation is accepted, and afterwards every save into that department is refused |
| `VacationSave.Covers` | djangotask/enterprise/models.py:143-150 | a period with an end date covers exactly the days from its start up to but not including its end; an open period covers every day from its start |
| `VacationSave.HandoverDayBelongsToNext` | djangotask/enterprise/models.py:143-150 | periods are half-open when they have an end date: a period ending on the day the next starts shares no day with it, and that day belongs to the later period whenever the later period is not empty |
| `VacationSave.FirstPositionConflict` | djangotask/enterprise/models.py:142-150 | the position loop fails exactly when some period of the worker contains the start day and records another position; the position it reports is one recorded by such a period |
| `VacationSave.FirstDaysMismatch` | djangotask/enterprise/models.py:151-153 | the day-count loop fails exactly when some position of that name grants a different number of days, and reports that entitlement |
| `VacationSave.SaveVacation` | djangotask/enterprise/models.py:141-154 | an unknown worker is refused first, then an unknown position; the position check runs before the day-count check; each error is given exactly when its own condition holds and the earlier ones pass, and the record is accepted exactly when the worker and position resolve and neither check finds a disagreement; the expected position or day count it carries is one recorded by a disagreeing period or position; success writes exactly this record, and implies the days equal the referenced position's entitlement and every covering period records that position |
| `VacationSave.ConflictIgnoresOrder` | djangotask/enterprise/models.py:142-150 | whether a position conflict exists does not depend on the order of the history rows |
| `VacationSave.PositionCheckIgnoresRowOrder` | djangotask/enterprise/models.py:142-150 | acceptance, and refusal for a wrong position, are the same for any reordering of the history rows |
| `VacationSave.UncoveredDayPassesPositionCheck` | djangotask/enterprise/models.py:142-150 | when no period of the worker contains the start day the position check passes |
| `VacationSave.OverlappingPeriodsRejectEveryPosition` | djangotask/enterprise/models.py:142-150 | two covering periods with different positions make every vacation on that day fail the position check |
| `VacationSave.PromotionDecidesPosition` | djangotask/enterprise/models.py:142-150 | after a move from P1 to P2 on some day, a vacation from that day naming P1 is refused with P2 expected, and naming P2 passes |
| `Reports.VacationDaysAppend` | djangotask/enterprise/serializers.py:144-148 | the vacation-day total over two parts of the table is the sum of the parts' totals |
| `Reports.VacationDays` | djangotask/enterprise/serializers.py:144-148 | a worker without vacation records has a total of 0 days, and each of the worker's vacations is at most the total |
| `Reports.SavedVacationAddsDays` | djangotask/enterprise/serializers.py:144-148 | accepting a new vacation adds its days to its worker's total and changes no other worker's total |
| `Reports.VacStart` | djangotask/enterprise/serializers.py:136-138 | `vac_start` is defined exactly when the worker has a vacation record, and is the start day of the worker's first record |
| `Reports.FirstVacation` | djangotask/enterprise/serializers.py:136-142 | the first vacation exists exactly when the worker has a record; it is that worker's record with no earlier one |
| `Reports.VacEnd` | djangotask/enterprise/serializers.py:140-142 | `vac_end` is defined exactly when `vac_start` is, and is the worker's first record's start day plus that record's own number of days, so start <= end <= start + total days |
| `Reports.WorkersCount` | djangotask/enterprise/serializers.py:170-171 | the reported headcount is 0 exactly when no stored worker belongs to the department |
| `Reports.WorkersCountIsHeadCount` | djangotask/enterprise/serializers.py:170-171 | the reported headcount, the size of the set of the department's rows, equals the count the capacity check uses |
| `Reports.CapacityMatchesReportedHeadcount` | djangotask/enterprise/serializers.py:170-171 | once the salary passes and the department resolves, a worker save is refused for capacity exactly when the reported headcount is 20 or more |
| `Accounts.Strip` | djangotask/enterprise/serializers.py:9-13 | a form's text value is passed on as the part left after cutting whitespace from both ends: a slice whose ends are not whitespace, equal to the value when the value has no such whitespace |
| `Accounts.CreateUser` | djangotask/enterprise/models.py:12-23 | a missing username is refused before a missing email; otherwise the user has the normalised email, is active without rights, and exactly the passwords hashing like the given one check |
| `Accounts.CreateSuperuser` | djangotask/enterprise/models.py:25-34 | a missing password is refused first; a created superuser has staff and superuser rights and its password checks |
| `Accounts.SuperuserExtendsUser` | djangotask/enterprise/models.py:25-34 | a superuser is the user `create_user` makes with the two rights added, and it fails exactly when `create_user` does |
| `Accounts.Register` | djangotask/enterprise/serializers.py:9-21 | the password is required; one that trims to nothing is refused as blank, and otherwise it must be 8 to 128 characters once trimmed; a supplied username or email that trims to nothing is refused; otherwise the result is exactly what `create_user` makes of the trimmed values, so a registered user is active without rights and its trimmed password checks |
| `Accounts.PaddedPasswordMeasuredTrimmed` | djangotask/enterprise/serializers.py:9-13 | the password `'  pass123  '` is measured as its 7 trimmed characters and refused as too short |
| `Accounts.Login` | djangotask/enterprise/serializers.py:30-54 | login fails for a missing email, then a missing password, then failed authentication, then an inactive user; it succeeds exactly when all pass, returning that user's email, username and token |
| `Accounts.UpdateUser` | djangotask/enterprise/serializers.py:56-79 | a supplied password that trims to nothing is refused as blank, and otherwise must be 8 to 128 characters once trimmed or the update is refused for length; then a supplied email or username must not trim to nothing, otherwise it is refused as blank; the update succeeds exactly when these hold; supplied email and username are assigned trimmed and others kept; the trimmed password is stored only as its hash; id, active flag and rights are unchanged |
| `Accounts.UpdateIdempotent` | djangotask/enterprise/serializers.py:69-79 | applying the same update twice succeeds again and gives a user with the same id, e-mail, username and flags as applying it once, whose password checks for exactly the same inputs |
| `Accounts.UpdateReplacesPassword` | djangotask/enterprise/serializers.py:69-79 | after a password change, an old password that hashes differently no longer checks |

## Left out

- `SaveWorker`: salaries and base salaries are integer cents, and the rule is
  computed exactly and rounded half-up. The source uses binary floats, `**` and
  `'{:.2f}'` formatting, which round the float value and can differ from the model by a cent.
- JWT token generation (`models.py:61-69`) depends on the clock, a signing
  library and a secret key. `Login` takes the token as a function of the user.
- `authenticate`, `normalize_email` and `set_password`'s hashing are framework
  calls. They are function parameters.
- The maximum of 50 years of experience is a field validator that `save()`
  does not call. The model puts no bound on experience.
- Server-assigned ids and timestamps: a candidate row carries its id, and
  `Rows.Upsert` inserts it when the id is new. Choosing a fresh id is left to the caller.
- Uniqueness of usernames and emails, email syntax and the 255-character field
  limits are database and form-field constraints. They are not modelled; user
  persistence is not modelled either.
- `UpdateIdempotent`: the model's `hash` depends on the password alone. Django's
  `set_password` salts afresh on every call, so a repeated update stores a different
  hash. The lemma therefore promises only that the same passwords check, not that
  the stored hashes are equal.
- `Register`: the form reports all field errors together. The model reports
  one refusal: a missing or blank password first, then a password of the wrong
  length, then a blank username or email, then a missing username or email,
  which the model reports with `create_user`'s errors.
- `UpdateUser`: one refusal as for `Register`; e-mail syntax is not checked.
- `Strip`: the form trims every Unicode whitespace character; the model trims
  space, tab, line feed, carriage return, vertical tab and form feed only.
- `Login`: the login form's own field handling (trimming, blank values, the
  255- and 128-character limits) is not modelled; `Login` starts from the
  values `validate` receives.
- `FirstVacation`: querysets have no ordering, so "first" means first in the
  order the store's sequence gives.
- Races between the validation reads and the write, and any transaction
  behaviour, are out of scope. Each save is one atomic step in the model.
- Cascading deletes, generic list/retrieve/delete endpoints, the department
  roster and position report serializers, `views.py` and `urls.py` are routing and
  field wiring with no checks.

=== FILE: accounts.dfy ===
/**
 User accounts: creating users and superusers, registration, login and the
 update of the signed-in user. E-mail normalisation, password hashing,
 credential lookup and token issuing belong to the web framework and are
 passed in as functions.
 */
module Accounts {
  import opened Records

  /** A stored password is a hash, or the marker of an unusable password. */
  datatype Password = Unusable | Hashed(digest: string)

  datatype User = User(
    id: nat,
    username: string,
    email: string,
    password: Password,
    isActive: bool,
    isStaff: bool,
    isSuperuser: bool)

  datatype AccountError =
    | UsernameRequired
    | EmailRequired
    | PasswordRequired
    | PasswordLength
    | FieldBlank

  datatype LoginError =
    | LoginEmailRequired
    | LoginPasswordRequired
    | BadCredentials
    | Deactivated

  /** What a successful login returns. */
  datatype LoginReply = LoginReply(email: string, username: string, token: string)

  /** The fields an update may carry; absent ones are left as they are. */
  datatype UserChanges = UserChanges(email: Option<string>, username: Option<string>, password: Option<string>)

  const MinPasswordLength: nat := 8
  const MaxPasswordLength: nat := 128

  /** The length bounds the registration and update forms put on a password. */
  predicate ValidPasswordLength(p: string)
  {
    MinPasswordLength <= |p| <= MaxPasswordLength
  }

  /** The characters a form's text field trims from both ends of a value. */
  predicate IsWhitespace(c: char)
  {
    c == ' ' || c == '\t' || c == '\n' || c == '\r' || c == '\U{000B}' || c == '\U{000C}'
  }

  /** How many whitespace characters `p` starts with. */
  function LeadingSpace(p: string): (n: nat)
    ensures n <= |p|
    ensures forall k :: 0 <= k < n ==> IsWhitespace(p[k])
    ensures n < |p| ==> !IsWhitespace(p[n])
  {
    if |p| > 0 && IsWhitespace(p[0]) then
      var n := 1 + LeadingSpace(p[1..]);
      assert forall k :: 1 <= k < n ==> p[k] == p[1..][k - 1];
      n
    else 0
  }

  /** Where the trailing whitespace of `p` begins. */
  function TextEnd(p: string): (n: nat)
    ensures n <= |p|
    ensures forall k :: n <= k < |p| ==> IsWhitespace(p[k])
    ensures n > 0 ==> !IsWhitespace(p[n - 1])
  {
    if |p| > 0 && IsWhitespace(p[|p| - 1]) then
      var q := p[..|p| - 1];
      var n := TextEnd(q);
      assert forall k :: n <= k < |q| ==> q[k] == p[k];
      n
    else |p|
  }

  /** What a text field of a form passes on: the value with whitespace trimmed
      from both ends. A value without such whitespace is passed on unchanged. */
  function Strip(p: string): (r: string)
    ensures exists i, j :: && 0 <= i <= j <= |p| && r == p[i..j]
                           && (forall k :: 0 <= k < i ==> IsWhitespace(p[k]))
                           && (forall k :: j <= k < |p| ==> IsWhitespace(p[k]))
    ensures |r| > 0 ==> !IsWhitespace(r[0]) && !IsWhitespace(r[|r| - 1])
    ensures (|p| == 0 || (!IsWhitespace(p[0]) && !IsWhitespace(p[|p| - 1]))) ==> r == p
  {
    var i := LeadingSpace(p);
    if i == |p| then
      assert p[|p|..|p|] == [];
      []
    else
      var j := TextEnd(p);
      assert (!IsWhitespace(p[0]) && !IsWhitespace(p[|p| - 1])) ==> i == 0 && j == |p| && p[i..j] == p;
      p[i..j]
  }

  /** A supplied text field that trims to nothing is refused as blank. */
  predicate IsBlank(field: Option<string>)
  {
    field.Some? && Strip(field.value) == []
  }

  /** The trimmed value of a supplied text field. */
  function Trimmed(field: Option<string>): Option<string>
  {
    if field.Some? then Some(Strip(field.value)) else None
  }

  /** Setting a password stores only its hash; no password makes it unusable. */
  function SetPassword(u: User, raw: Option<string>, hash: string -> string): User
  {
    u.(password := if raw.Some? then Hashed(hash(raw.value)) else Unusable)
  }

  /** Whether `raw` is the user's password: its hash is the stored one. */
  predicate CheckPassword(u: User, raw: string, hash: string -> string)
  {
    u.password == Hashed(hash(raw))
  }

  /** `UserManager.create_user`: a missing username is reported before a missing
      email; the new user is active and has no staff or superuser rights. */
  function CreateUser(id: nat, username: Option<string>, email: Option<string>, password: Option<string>,
                      normalize: string -> string, hash: string -> string): (r: Result<User, AccountError>)
    ensures username.None? ==> r == Err(UsernameRequired)
    ensures username.Some? && email.None? ==> r == Err(EmailRequired)
    ensures r.Ok? <==> username.Some? && email.Some?
    ensures r.Ok? ==> && r.value.id == id
                      && r.value.username == username.value
                      && r.value.email == normalize(email.value)
                      && r.value.isActive && !r.value.isStaff && !r.value.isSuperuser
    ensures r.Ok? ==> forall p :: CheckPassword(r.value, p, hash) <==> password.Some? && hash(p) == hash(password.value)
  {
    if username.None? then Err(UsernameRequired)
    else if email.None? then Err(EmailRequired)
    else
      var u := User(id, username.value, normalize(email.value), Unusable, true, false, false);
      Ok(SetPassword(u, password, hash))
  }

  /** `UserManager.create_superuser`: a missing password is reported first; then
      the user is created as by `CreateUser` and given staff and superuser rights. */
  function CreateSuperuser(id: nat, username: Option<string>, email: Option<string>, password: Option<string>,
                           normalize: string -> string, hash: string -> string): (r: Result<User, AccountError>)
    ensures password.None? ==> r == Err(PasswordRequired)
    ensures r.Ok? <==> password.Some? && username.Some? && email.Some?
    ensures r.Ok? ==> r.value.isSuperuser && r.value.isStaff && CheckPassword(r.value, password.value, hash)
  {
    if password.None? then Err(PasswordRequired)
    else
      match CreateUser(id, username, email, password, normalize, hash)
      case Err(e) => Err(e)
      case Ok(u) => Ok(u.(isSuperuser := true, isStaff := true))
  }

  /** A superuser is the user `CreateUser` would make, with the two rights added. */
  lemma SuperuserExtendsUser(id: nat, username: Option<string>, email: Option<string>, password: Option<string>,
                             normalize: string -> string, hash: string -> string)
    ensures password.Some? ==>
              CreateSuperuser(id, username, email, password, normalize, hash).Err? ==
              CreateUser(id, username, email, password, normalize, hash).Err?
    ensures CreateSuperuser(id, username, email, password, normalize, hash).Ok? ==>
              CreateSuperuser(id, username, email, password, normalize, hash).value ==
              CreateUser(id, username, email, password, normalize, hash).value.(isSuperuser := true, isStaff := true)
  {
  }

  /** Registration: the form trims every field; the password is required, must
      not be blank, and must be 8 to 128 characters once trimmed, and a supplied
      username or email must not be blank; then `create_user` receives the
      trimmed values. */
  function Register(id: nat, username: Option<string>, email: Option<string>, password: Option<string>,
                    normalize: string -> string, hash: string -> string): (r: Result<User, AccountError>)
    ensures password.None? ==> r == Err(PasswordRequired)
    ensures IsBlank(password) ==> r == Err(FieldBlank)
    ensures (password.Some? && !IsBlank(password) && !ValidPasswordLength(Strip(password.value)))
              ==> r == Err(PasswordLength)
    ensures (password.Some? && ValidPasswordLength(Strip(password.value)) && (IsBlank(username) || IsBlank(email)))
              ==> r == Err(FieldBlank)
    ensures (password.Some? && ValidPasswordLength(Strip(password.value)) && !IsBlank(username) && !IsBlank(email))
              ==> r == CreateUser(id, Trimmed(username), Trimmed(email), Trimmed(password), normalize, hash)
    ensures r.Ok? <==> && password.Some? && ValidPasswordLength(Strip(password.value))
                       && username.Some? && email.Some? && !IsBlank(username) && !IsBlank(email)
    ensures r.Ok? ==> && r.value.id == id
                      && r.value.username == Strip(username.value)
                      && r.value.email == normalize(Strip(email.value))
                      && CheckPassword(r.value, Strip(password.value), hash)
                      && r.value.isActive && !r.value.isStaff && !r.value.isSuperuser
  {
    if password.None? then Err(PasswordRequired)
    else if IsBlank(password) then Err(FieldBlank)
    else if !ValidPasswordLength(Strip(password.value)) then Err(PasswordLength)
    else if IsBlank(username) || IsBlank(email) then Err(FieldBlank)
    else CreateUser(id, Trimmed(username), Trimmed(email), Trimmed(password), normalize, hash)
  }

  /** A password padded with spaces is measured without them: eleven characters
      of which seven remain are too short. */
  lemma PaddedPasswordMeasuredTrimmed(id: nat, username: Option<string>, email: Option<string>,
                                      normalize: string -> string, hash: string -> string)
    ensures Register(id, username, email, Some("  pass123  "), normalize, hash) == Err(PasswordLength)
  {
    var p := "  pass123  ";
    assert IsWhitespace(p[0]) && IsWhitespace(p[1]) && !IsWhitespace(p[2]);
    assert LeadingSpace(p) == 2;
    assert !IsWhitespace(p[8]) && IsWhitespace(p[9]) && IsWhitespace(p[10]);
    assert TextEnd(p) == 9;
    assert |Strip(p)| == 7;
  }

  /** `LoginSerializer.validate`: missing email, missing password, unknown
      credentials and a deactivated account are reported in that order. */
  function Login(email: Option<string>, password: Option<string>,
                 authenticate: (string, string) -> Option<User>, token: User -> string): (r: Result<LoginReply, LoginError>)
    ensures email.None? ==> r == Err(LoginEmailRequired)
    ensures email.Some? && password.None? ==> r == Err(LoginPasswordRequired)
    ensures (email.Some? && password.Some? && authenticate(email.value, password.value).None?)
              ==> r == Err(BadCredentials)
    ensures r.Ok? <==> && email.Some? && password.Some?
                       && authenticate(email.value, password.value).Some?
                       && authenticate(email.value, password.value).value.isActive
    ensures r.Ok? ==> var u := authenticate(email.value, password.value).value;
                      r.value == LoginReply(u.email, u.username, token(u))
    ensures (r.Err? && email.Some? && password.Some? && authenticate(email.value, password.value).Some?)
              ==> r == Err(Deactivated)
  {
    if email.None? then Err(LoginEmailRequired)
    else if password.None? then Err(LoginPasswordRequired)
    else
      match authenticate(email.value, password.value)
      case None => Err(BadCredentials)
      case Some(u) =>
        if !u.isActive then Err(Deactivated)
        else Ok(LoginReply(u.email, u.username, token(u)))
  }

  /** `UserSerializer.update`: the form trims every supplied field; a supplied
      password must not be blank and must be 8 to 128 characters once trimmed,
      and a supplied email or username must not be blank. The password is stored only through
      `SetPassword`; the other supplied fields are assigned as trimmed, and
      nothing else changes. */
  function UpdateUser(u: User, changes: UserChanges, hash: string -> string): (r: Result<User, AccountError>)
    ensures IsBlank(changes.password) ==> r == Err(FieldBlank)
    ensures (changes.password.Some? && !IsBlank(changes.password) && !ValidPasswordLength(Strip(changes.password.value)))
              ==> r == Err(PasswordLength)
    ensures ((changes.password.None? || ValidPasswordLength(Strip(changes.password.value)))
             && (IsBlank(changes.email) || IsBlank(changes.username))) ==> r == Err(FieldBlank)
    ensures r.Ok? <==> && (changes.password.None? || ValidPasswordLength(Strip(changes.password.value)))
                       && !IsBlank(changes.email) && !IsBlank(changes.username)
    ensures r.Ok? ==> && r.value.email == (if changes.email.Some? then Strip(changes.email.value) else u.email)
                      && r.value.username == (if changes.username.Some? then Strip(changes.username.value) else u.username)
                      && r.value.id == u.id && r.value.isActive == u.isActive
                      && r.value.isStaff == u.isStaff && r.value.isSuperuser == u.isSuperuser
    ensures r.Ok? && changes.password.None? ==> r.value.password == u.password
    ensures r.Ok? && changes.password.Some? ==> CheckPassword(r.value, Strip(changes.password.value), hash)
  {
    if IsBlank(changes.password) then Err(FieldBlank)
    else if changes.password.Some? && !ValidPasswordLength(Strip(changes.password.value)) then Err(PasswordLength)
    else if IsBlank(changes.email) || IsBlank(changes.username) then Err(FieldBlank)
    else
      var u' := u.(email := if changes.email.Some? then Strip(changes.email.value) else u.email,
                   username := if changes.username.Some? then Strip(changes.username.value) else u.username);
      Ok(if changes.password.Some? then SetPassword(u', Trimmed(changes.password), hash) else u')
  }

  /** Applying the same changes twice gives a user with the same id, e-mail,
      username and flags as applying them once, and the same passwords check. */
  lemma UpdateIdempotent(u: User, changes: UserChanges, hash: string -> string)
    requires UpdateUser(u, changes, hash).Ok?
    ensures UpdateUser(UpdateUser(u, changes, hash).value, changes, hash).Ok?
    ensures var once := UpdateUser(u, changes, hash).value;
            var twice := UpdateUser(once, changes, hash).value;
            && twice.id == once.id && twice.email == once.email && twice.username == once.username
            && twice.isActive == once.isActive && twice.isStaff == once.isStaff
            && twice.isSuperuser == once.isSuperuser
            && forall p :: CheckPassword(twice, p, hash) <==> CheckPassword(once, p, hash)
  {
  }

  /** After an update that changes the password, the old password no longer
      checks unless it hashes like the new one. */
  lemma UpdateReplacesPassword(u: User, changes: UserChanges, hash: string -> string, previous: string)
    requires UpdateUser(u, changes, hash).Ok? && changes.password.Some?
    requires hash(previous) != hash(Strip(changes.password.value))
    ensures !CheckPassword(UpdateUser(u, changes, hash).value, previous, hash)
  {
  }
}

=== FILE: records.dfy ===
/**
 The persisted records of the enterprise application and the store that holds
 them. Every table is an immutable sequence in the order the database happens
 to enumerate it; foreign keys are the numeric ids of the referenced rows.
 Money is kept in integer cents and dates are day numbers.
 */
module Records {
  import opened Rows

  datatype Option<+T> = None | Some(value: T)

  /** The outcome of a write: the new value, or the reason it was refused. */
  datatype Result<+T, +E> = Ok(value: T) | Err(error: E)

  /** The `status` value that marks a worker as being on vacation. */
  const OnVacation: string := "vac"
  /** The other status value the application writes. */
  const OnDuty: string := "not_vac"

  /** A department may hold fewer than this many workers before a save. */
  const MaxWorkers: nat := 20
  /** A department may hold fewer than this many workers on vacation before a save. */
  const MaxOnVacation: nat := 5

  datatype Department = Department(id: nat, name: string, abbreviation: string, head: string)

  /** A job position: `salary` is the base salary in cents, `vacDays` the vacation entitlement. */
  datatype Position = Position(id: nat, name: string, salary: int, vacDays: nat)

  /** `depart` and `pos` are the ids of the department and position; `salary` is in cents;
      `status` is free text of which only `OnVacation` has a meaning. */
  datatype Worker = Worker(
    id: nat,
    fullName: string,
    passport: string,
    birthDate: int,
    birthPlace: string,
    address: string,
    depart: nat,
    pos: nat,
    experience: nat,
    salary: int,
    status: string)

  /** One period in which `worker` held position `workerPos`; no end date means "until now". */
  datatype PosHistory = PosHistory(id: nat, worker: nat, workerPos: nat, startDate: int, endDate: Option<int>)

  /** One vacation of `worker` starting on `startDate`, taken while holding `thatTimePos`. */
  datatype VacHistory = VacHistory(id: nat, worker: nat, startDate: int, thatTimePos: nat, numOfDays: nat)

  datatype Store = Store(
    departments: seq<Department>,
    positions: seq<Position>,
    workers: seq<Worker>,
    posHistory: seq<PosHistory>,
    vacHistory: seq<VacHistory>)

  /** Why a save was refused. The payloads are the "it should be ..." values of the messages. */
  datatype SaveError =
    | NoSuchPosition
    | NoSuchDepartment
    | NoSuchWorker
    | WrongSalary(expectedSalary: int)
    | DepartmentFull
    | VacationQuotaFull
    | WrongPosition(expectedPosition: nat)
    | WrongNumberOfDays(expectedDays: nat)

  /** Fetching a related row by its primary key: a row stored under `id`. */
  function Find<T>(rows: seq<T>, id: nat, key: T -> nat): (r: Option<T>)
    ensures r.Some? <==> HasKey(rows, id, key)
    ensures r.Some? ==> exists i :: 0 <= i < |rows| && rows[i] == r.value && key(r.value) == id
  {
    if |rows| == 0 then None
    else if key(rows[0]) == id then Some(rows[0])
    else
      var r := Find(rows[1..], id, key);
      assert forall j :: 0 <= j < |rows[1..]| ==> rows[1..][j] == rows[j + 1];
      assert HasKey(rows, id, key) ==> r.Some? by {
        if HasKey(rows, id, key) {
          var j :| 0 <= j < |rows| && key(rows[j]) == id;
          assert rows[1..][j - 1] == rows[j];
        }
      }
      r
  }

  function DepartmentKey(d: Department): nat { d.id }

  function PositionKey(p: Position): nat { p.id }

  function WorkerKey(w: Worker): nat { w.id }

  function VacHistoryKey(v: VacHistory): nat { v.id }
}

=== FILE: reports.dfy ===
/**
 The read-only reports over the stored records: a worker's vacation summary
 (first vacation's start and end day, total vacation days) and a department's
 headcount. Each is a fold over the table in enumeration order.
 */
module Reports {
  import opened Records
  import opened Rows
  import opened WorkerSave
  import opened VacationSave

  /** Total vacation days over all vacation records of worker `wid`. */
  function VacationDays(vs: seq<VacHistory>, wid: nat): (r: nat)
    ensures (forall i :: 0 <= i < |vs| ==> vs[i].worker != wid) ==> r == 0
    ensures forall i :: 0 <= i < |vs| && vs[i].worker == wid ==> vs[i].numOfDays <= r
  {
    if |vs| == 0 then 0
    else (if vs[0].worker == wid then vs[0].numOfDays else 0) + VacationDays(vs[1..], wid)
  }

  lemma {:induction false} VacationDaysAppend(a: seq<VacHistory>, b: seq<VacHistory>, wid: nat)
    ensures VacationDays(a + b, wid) == VacationDays(a, wid) + VacationDays(b, wid)
  {
    if |a| == 0 {
      assert a + b == b;
    } else {
      assert (a + b)[1..] == a[1..] + b;
      VacationDaysAppend(a[1..], b, wid);
    }
  }

  /** Accepting a vacation under a new id adds its days to its worker's total
      and leaves every other worker's total as it was. */
  lemma SavedVacationAddsDays(s: Store, v: VacHistory, other: nat)
    requires SaveVacation(s, v).Ok?
    requires !HasKey(s.vacHistory, v.id, VacHistoryKey)
    requires other != v.worker
    ensures VacationDays(SaveVacation(s, v).value.vacHistory, v.worker) == VacationDays(s.vacHistory, v.worker) + v.numOfDays
    ensures VacationDays(SaveVacation(s, v).value.vacHistory, other) == VacationDays(s.vacHistory, other)
  {
    assert SaveVacation(s, v).value.vacHistory == s.vacHistory + [v];
    VacationDaysAppend(s.vacHistory, [v], v.worker);
    VacationDaysAppend(s.vacHistory, [v], other);
  }

  /** The first vacation record of worker `wid`, in enumeration order. */
  function FirstVacation(vs: seq<VacHistory>, wid: nat): (r: Option<VacHistory>)
    ensures r.Some? <==> exists i :: 0 <= i < |vs| && vs[i].worker == wid
    ensures r.Some? ==> exists i :: 0 <= i < |vs| && vs[i] == r.value && r.value.worker == wid
                                    && forall j :: 0 <= j < i ==> vs[j].worker != wid
  {
    if |vs| == 0 then None
    else if vs[0].worker == wid then Some(vs[0])
    else
      var r := FirstVacation(vs[1..], wid);
      assert forall j :: 0 <= j < |vs[1..]| ==> vs[1..][j] == vs[j + 1];
      assert (exists i :: 0 <= i < |vs| && vs[i].worker == wid) ==> r.Some? by {
        if exists i :: 0 <= i < |vs| && vs[i].worker == wid {
          var i :| 0 <= i < |vs| && vs[i].worker == wid;
          assert vs[1..][i - 1] == vs[i];
        }
      }
      assert r.Some? ==> exists i :: 0 <= i < |vs| && vs[i] == r.value && r.value.worker == wid
                                     && forall j :: 0 <= j < i ==> vs[j].worker != wid by {
        if r.Some? {
          var i :| 0 <= i < |vs[1..]| && vs[1..][i] == r.value && r.value.worker == wid
                   && forall j :: 0 <= j < i ==> vs[1..][j].worker != wid;
          assert vs[i + 1] == r.value;
          assert forall j :: 0 <= j < i + 1 ==> vs[j].worker != wid by {
            forall j | 0 <= j < i + 1
              ensures vs[j].worker != wid
            {
              if j > 0 {
                assert vs[j] == vs[1..][j - 1];
              }
            }
          }
        }
      }
      r
  }

  /** The `vac_start` field: the start day of the worker's first vacation, if any. */
  function VacStart(vs: seq<VacHistory>, wid: nat): (r: Option<int>)
    ensures r.Some? <==> exists i :: 0 <= i < |vs| && vs[i].worker == wid
    ensures r.Some? ==> exists i :: 0 <= i < |vs| && vs[i].worker == wid && vs[i].startDate == r.value
                                    && forall j :: 0 <= j < i ==> vs[j].worker != wid
  {
    match FirstVacation(vs, wid)
    case None => None
    case Some(v) => Some(v.startDate)
  }

  /** The `vac_end` field: the first vacation's start day plus that vacation's
      own number of days. It is defined exactly when `vac_start` is, is never
      before it, and lies within the worker's total vacation days of it. */
  function VacEnd(vs: seq<VacHistory>, wid: nat): (r: Option<int>)
    ensures r.Some? <==> VacStart(vs, wid).Some?
    ensures r.Some? ==> VacStart(vs, wid).value <= r.value <= VacStart(vs, wid).value + VacationDays(vs, wid)
    ensures r.Some? ==> exists i :: && 0 <= i < |vs| && vs[i].worker == wid
                                    && (forall j :: 0 <= j < i ==> vs[j].worker != wid)
                                    && r.value == vs[i].startDate + vs[i].numOfDays
  {
    match FirstVacation(vs, wid)
    case None => None
    case Some(v) =>
      Some(v.startDate + v.numOfDays)
  }

  /** The `workers` field of the department headcount report: how many stored
      workers belong to department `d`. */
  function WorkersCount(ws: seq<Worker>, d: nat): (r: nat)
    ensures r == 0 <==> forall i :: 0 <= i < |ws| ==> ws[i].depart != d
  {
    var members := set i | 0 <= i < |ws| && ws[i].depart == d;
    assert (exists i :: 0 <= i < |ws| && ws[i].depart == d) ==> |members| > 0 by {
      if exists i :: 0 <= i < |ws| && ws[i].depart == d {
        var i :| 0 <= i < |ws| && ws[i].depart == d;
        assert i in members;
      }
    }
    |members|
  }

  /** The reported headcount is the count the capacity check of a worker save uses. */
  lemma {:induction false} WorkersCountIsHeadCount(ws: seq<Worker>, d: nat)
    ensures WorkersCount(ws, d) == HeadCount(ws, d)
  {
    if |ws| > 0 {
      var n := |ws|;
      var pre := ws[..n - 1];
      WorkersCountIsHeadCount(pre, d);
      assert ws == pre + [ws[n - 1]];
      HeadCountAppend(pre, [ws[n - 1]], d);
      var before := set i | 0 <= i < |pre| && pre[i].depart == d;
      var after := set i | 0 <= i < |ws| && ws[i].depart == d;
      if ws[n - 1].depart == d {
        assert after == before + {n - 1};
      } else {
        assert after == before;
      }
    }
  }

  /** A worker save that passes the salary check is refused for capacity exactly
      when the headcount report for its department shows `MaxWorkers` or more. */
  lemma CapacityMatchesReportedHeadcount(s: Store, w: Worker)
    requires PassesSalaryCheck(s, w)
    requires Find(s.departments, w.depart, DepartmentKey).Some?
    ensures SaveWorker(s, w) == Err(DepartmentFull) <==> WorkersCount(s.workers, w.depart) >= MaxWorkers
  {
    WorkersCountIsHeadCount(s.workers, w.depart);
  }
}

=== FILE: rows.dfy ===
/**
 Persisting a row by primary key, as a model instance's `save()` does: the
 stored row with the same key is overwritten, and a row whose key is not yet
 stored is added at the end of the table.
 */
module Rows {

  /** Whether some row of `rows` has primary key `k`. */
  predicate HasKey<T>(rows: seq<T>, k: nat, key: T -> nat)
  {
    exists i :: 0 <= i < |rows| && key(rows[i]) == k
  }

  /** `after` is `before` with `x` written under its key and nothing else changed. */
  predicate StoredExactly<T(==)>(before: seq<T>, after: seq<T>, x: T, key: T -> nat)
  {
    && x in after
    && (forall y :: y in after ==> y == x || (y in before && key(y) != key(x)))
    && (forall y :: y in before && key(y) != key(x) ==> y in after)
  }

  /** Every row stored under the key of `x` becomes `x`; the others keep their place. */
  function Overwrite<T>(rows: seq<T>, x: T, key: T -> nat): (r: seq<T>)
    ensures |r| == |rows|
    ensures forall i :: 0 <= i < |rows| ==> r[i] == (if key(rows[i]) == key(x) then x else rows[i])
  {
    if |rows| == 0 then []
    else [if key(rows[0]) == key(x) then x else rows[0]] + Overwrite(rows[1..], x, key)
  }

  /** An UPDATE of the row with the key of `x` when there is one, an INSERT otherwise. */
  function Upsert<T(==)>(rows: seq<T>, x: T, key: T -> nat): (r: seq<T>)
    ensures StoredExactly(rows, r, x, key)
    ensures HasKey(rows, key(x), key) ==> |r| == |rows|
    ensures !HasKey(rows, key(x), key) ==> r == rows + [x]
  {
    if HasKey(rows, key(x), key) then Overwrite(rows, x, key) else rows + [x]
  }
}

=== FILE: salary.dfy ===
/**
 The salary rule a worker's stored salary must satisfy: the base salary of the
 position grown by 1.2 percent per year of experience, rounded to the cent.
 Amounts are integer cents and the growth is computed exactly.
 */
module SalaryRule {

  /** The yearly growth factor 1 + 0.012. */
  const Growth: real := 1.012

  function Pow(b: real, n: nat): real
  {
    if n == 0 then 1.0 else b * Pow(b, n - 1)
  }

  /** Rounds to the nearest integer; an exact half rounds up. */
  function RoundHalfUp(x: real): int
  {
    (x + 0.5).Floor
  }

  /** The salary, in cents, that a worker with `experience` years on a position
      whose base salary is `baseCents` must be paid. */
  function ExpectedSalary(baseCents: int, experience: nat): int
  {
    RoundHalfUp(baseCents as real * Pow(Growth, experience))
  }

  lemma {:induction false} PowAtLeastOne(n: nat)
    ensures Pow(Growth, n) >= 1.0
  {
    if n > 0 {
      PowAtLeastOne(n - 1);
    }
  }

  lemma RoundHalfUpMonotone(x: real, y: real)
    requires x <= y
    ensures RoundHalfUp(x) <= RoundHalfUp(y)
  {
  }

  /** With no experience the expected salary is the base salary itself. */
  lemma NoExperienceEarnsBase(baseCents: int)
    ensures ExpectedSalary(baseCents, 0) == baseCents
  {
  }

  /** One more year of experience never lowers a non-negative expected salary. */
  lemma {:induction false} ExpectedSalaryStep(baseCents: int, experience: nat)
    requires baseCents >= 0
    ensures ExpectedSalary(baseCents, experience) <= ExpectedSalary(baseCents, experience + 1)
  {
    var p := Pow(Growth, experience);
    PowAtLeastOne(experience);
    assert Pow(Growth, experience + 1) == Growth * p;
    var b := baseCents as real;
    assert b * p <= b * (Growth * p) by {
      assert b * (Growth * p) - b * p == b * p * 0.012;
    }
    RoundHalfUpMonotone(b * p, b * (Growth * p));
  }

  /** The expected salary is non-decreasing in experience for any non-negative base. */
  lemma {:induction false} ExpectedSalaryMonotone(baseCents: int, e1: nat, e2: nat)
    requires baseCents >= 0
    requires e1 <= e2
    ensures ExpectedSalary(baseCents, e1) <= ExpectedSalary(baseCents, e2)
  {
    if e1 < e2 {
      ExpectedSalaryMonotone(baseCents, e1, e2 - 1);
      ExpectedSalaryStep(baseCents, e2 - 1);
    }
  }
}

=== FILE: vacation_save.dfy ===
/**
 Saving a vacation record. Two checks run before the row is written: every
 position-history period of the worker that contains the vacation's start day
 must record the position the vacation names, and the number of days must equal
 the entitlement of every position named like that position. A disagreeing
 period rejects the save wherever it sits in the history; when no period
 contains the start day the first check passes.
 */
module VacationSave {
  import opened Records
  import opened Rows

  /** Whether day `d` falls in period `h`: the start day is included, the end
      day is not, and a period without an end date runs on indefinitely. */
  predicate Covers(h: PosHistory, d: int)
    ensures Covers(h, d) ==> h.startDate <= d
    ensures h.endDate.Some? && Covers(h, d) ==> d < h.endDate.value
    ensures h.endDate.Some? && h.startDate <= d < h.endDate.value ==> Covers(h, d)
    ensures h.endDate.None? && h.startDate <= d ==> Covers(h, d)
  {
    if h.endDate.Some? then h.startDate <= d < h.endDate.value
    else h.startDate <= d
  }

  /** A period ending on the day the next one starts shares no day with it, and
      that day belongs to the later period. */
  lemma HandoverDayBelongsToNext(before: PosHistory, after: PosHistory, d: int)
    requires before.endDate == Some(after.startDate)
    ensures !(Covers(before, d) && Covers(after, d))
    ensures !Covers(before, after.startDate)
    ensures (after.endDate.None? || after.startDate < after.endDate.value) ==> Covers(after, after.startDate)
  {
  }

  /** Some period of the vacation's worker contains its start day and records
      a position other than the one the vacation names. */
  predicate PositionConflict(hs: seq<PosHistory>, v: VacHistory)
  {
    exists i :: 0 <= i < |hs| && hs[i].worker == v.worker && Covers(hs[i], v.startDate)
                && hs[i].workerPos != v.thatTimePos
  }

  /** The loop over the worker's periods: the position recorded by the first
      disagreeing period that contains the start day, if any. */
  function FirstPositionConflict(hs: seq<PosHistory>, v: VacHistory): (r: Option<nat>)
    ensures r.Some? <==> PositionConflict(hs, v)
    ensures r.Some? ==> r.value != v.thatTimePos
    ensures r.Some? ==> exists i :: 0 <= i < |hs| && hs[i].worker == v.worker
                          && Covers(hs[i], v.startDate) && hs[i].workerPos == r.value
                          && !PositionConflict(hs[..i], v)
  {
    if |hs| == 0 then None
    else if hs[0].worker == v.worker && Covers(hs[0], v.startDate) && hs[0].workerPos != v.thatTimePos then
      Some(hs[0].workerPos)
    else
      var r := FirstPositionConflict(hs[1..], v);
      assert forall j :: 0 <= j < |hs[1..]| ==> hs[1..][j] == hs[j + 1];
      assert PositionConflict(hs, v) ==> r.Some? by {
        if PositionConflict(hs, v) {
          var j :| 0 <= j < |hs| && hs[j].worker == v.worker && Covers(hs[j], v.startDate)
                   && hs[j].workerPos != v.thatTimePos;
          assert hs[1..][j - 1] == hs[j];
        }
      }
      assert r.Some? ==> exists i :: 0 <= i < |hs| && hs[i].worker == v.worker
                          && Covers(hs[i], v.startDate) && hs[i].workerPos == r.value
                          && !PositionConflict(hs[..i], v) by {
        if r.Some? {
          var j :| 0 <= j < |hs[1..]| && hs[1..][j].worker == v.worker
                   && Covers(hs[1..][j], v.startDate) && hs[1..][j].workerPos == r.value
                   && !PositionConflict(hs[1..][..j], v);
          forall k | 0 <= k < j + 1 && hs[k].worker == v.worker && Covers(hs[k], v.startDate)
            ensures hs[k].workerPos == v.thatTimePos
          {
            if k > 0 {
              assert hs[k] == hs[1..][..j][k - 1];
            }
          }
          assert forall k :: 0 <= k < j + 1 ==> hs[..j + 1][k] == hs[k];
        }
      }
      r
  }

  /** Some position named `name` grants other than `days` vacation days. */
  predicate DaysMismatch(ps: seq<Position>, name: string, days: nat)
  {
    exists i :: 0 <= i < |ps| && ps[i].name == name && ps[i].vacDays != days
  }

  /** The loop over the positions named `name`: the entitlement of the first one
      that disagrees with `days`, if any. */
  function FirstDaysMismatch(ps: seq<Position>, name: string, days: nat): (r: Option<nat>)
    ensures r.Some? <==> DaysMismatch(ps, name, days)
    ensures r.Some? ==> r.value != days
    ensures r.Some? ==> exists i :: 0 <= i < |ps| && ps[i].name == name && ps[i].vacDays == r.value
                          && !DaysMismatch(ps[..i], name, days)
  {
    if |ps| == 0 then None
    else if ps[0].name == name && ps[0].vacDays != days then Some(ps[0].vacDays)
    else
      var r := FirstDaysMismatch(ps[1..], name, days);
      assert forall j :: 0 <= j < |ps[1..]| ==> ps[1..][j] == ps[j + 1];
      assert DaysMismatch(ps, name, days) ==> r.Some? by {
        if DaysMismatch(ps, name, days) {
          var j :| 0 <= j < |ps| && ps[j].name == name && ps[j].vacDays != days;
          assert ps[1..][j - 1] == ps[j];
        }
      }
      assert r.Some? ==> exists i :: 0 <= i < |ps| && ps[i].name == name && ps[i].vacDays == r.value
                          && !DaysMismatch(ps[..i], name, days) by {
        if r.Some? {
          var j :| 0 <= j < |ps[1..]| && ps[1..][j].name == name && ps[1..][j].vacDays == r.value
                   && !DaysMismatch(ps[1..][..j], name, days);
          forall k | 0 <= k < j + 1 && ps[k].name == name
            ensures ps[k].vacDays == days
          {
            if k > 0 {
              assert ps[k] == ps[1..][..j][k - 1];
            }
          }
          assert forall k :: 0 <= k < j + 1 ==> ps[..j + 1][k] == ps[k];
        }
      }
      r
  }

  /** `VacHistory.save`: the worker and the position must resolve, then the
      position check, then the day-count check, then the upsert of `v` by id. */
  function SaveVacation(s: Store, v: VacHistory): (r: Result<Store, SaveError>)
    ensures r == Err(NoSuchWorker) <==> !HasKey(s.workers, v.worker, WorkerKey)
    ensures r == Err(NoSuchPosition) <==>
              (HasKey(s.workers, v.worker, WorkerKey) && Find(s.positions, v.thatTimePos, PositionKey).None?)
    ensures (r.Err? && r.error.WrongPosition?) <==>
              (HasKey(s.workers, v.worker, WorkerKey) && Find(s.positions, v.thatTimePos, PositionKey).Some?
               && PositionConflict(s.posHistory, v))
    ensures (r.Err? && r.error.WrongPosition?) ==>
              exists i :: 0 <= i < |s.posHistory| && s.posHistory[i].worker == v.worker
                          && Covers(s.posHistory[i], v.startDate)
                          && s.posHistory[i].workerPos == r.error.expectedPosition != v.thatTimePos
    ensures (r.Err? && r.error.WrongNumberOfDays?) <==>
              (HasKey(s.workers, v.worker, WorkerKey) && Find(s.positions, v.thatTimePos, PositionKey).Some?
               && !PositionConflict(s.posHistory, v)
               && DaysMismatch(s.positions, Find(s.positions, v.thatTimePos, PositionKey).value.name, v.numOfDays))
    ensures (r.Err? && r.error.WrongNumberOfDays?) ==>
              && Find(s.positions, v.thatTimePos, PositionKey).Some?
              && r.error.expectedDays != v.numOfDays
              && exists i :: 0 <= i < |s.positions|
                             && s.positions[i].name == Find(s.positions, v.thatTimePos, PositionKey).value.name
                             && s.positions[i].vacDays == r.error.expectedDays
    ensures r.Ok? <==> && HasKey(s.workers, v.worker, WorkerKey)
                       && Find(s.positions, v.thatTimePos, PositionKey).Some?
                       && !PositionConflict(s.posHistory, v)
                       && !DaysMismatch(s.positions, Find(s.positions, v.thatTimePos, PositionKey).value.name, v.numOfDays)
    ensures r.Ok? ==> && r.value.departments == s.departments
                      && r.value.positions == s.positions
                      && r.value.workers == s.workers
                      && r.value.posHistory == s.posHistory
                      && StoredExactly(s.vacHistory, r.value.vacHistory, v, VacHistoryKey)
    ensures r.Ok? ==> && Find(s.positions, v.thatTimePos, PositionKey).Some?
                      && v.numOfDays == Find(s.positions, v.thatTimePos, PositionKey).value.vacDays
    ensures r.Ok? ==> forall i :: 0 <= i < |s.posHistory| && s.posHistory[i].worker == v.worker
                                  && Covers(s.posHistory[i], v.startDate)
                                  ==> s.posHistory[i].workerPos == v.thatTimePos
  {
    if !HasKey(s.workers, v.worker, WorkerKey) then Err(NoSuchWorker)
    else
      match Find(s.positions, v.thatTimePos, PositionKey)
      case None => Err(NoSuchPosition)
      case Some(p) =>
        match FirstPositionConflict(s.posHistory, v)
        case Some(expected) => Err(WrongPosition(expected))
        case None =>
          match FirstDaysMismatch(s.positions, p.name, v.numOfDays)
          case Some(expected) => Err(WrongNumberOfDays(expected))
          case None =>
            assert p in s.positions;
            Ok(s.(vacHistory := Upsert(s.vacHistory, v, VacHistoryKey)))
  }

  predicate IsWrongPosition(r: Result<Store, SaveError>)
  {
    r.Err? && r.error.WrongPosition?
  }

  lemma {:induction false} ConflictIgnoresOrder(hs: seq<PosHistory>, hs': seq<PosHistory>, v: VacHistory)
    requires multiset(hs) == multiset(hs')
    ensures PositionConflict(hs, v) ==> PositionConflict(hs', v)
  {
    if PositionConflict(hs, v) {
      var i :| 0 <= i < |hs| && hs[i].worker == v.worker && Covers(hs[i], v.startDate)
               && hs[i].workerPos != v.thatTimePos;
      assert hs[i] in multiset(hs);
      assert hs[i] in hs';
      var j :| 0 <= j < |hs'| && hs'[j] == hs[i];
    }
  }

  /** Whether a vacation is accepted, and whether it is refused for its position,
      does not depend on the order in which the history rows are enumerated. */
  lemma PositionCheckIgnoresRowOrder(s: Store, hs: seq<PosHistory>, v: VacHistory)
    requires multiset(hs) == multiset(s.posHistory)
    ensures SaveVacation(s, v).Ok? == SaveVacation(s.(posHistory := hs), v).Ok?
    ensures IsWrongPosition(SaveVacation(s, v)) == IsWrongPosition(SaveVacation(s.(posHistory := hs), v))
    ensures !IsWrongPosition(SaveVacation(s, v)) ==>
              SaveVacation(s, v).Err? == SaveVacation(s.(posHistory := hs), v).Err?
              && (SaveVacation(s, v).Err? ==> SaveVacation(s, v).error == SaveVacation(s.(posHistory := hs), v).error)
  {
    ConflictIgnoresOrder(hs, s.posHistory, v);
    ConflictIgnoresOrder(s.posHistory, hs, v);
  }

  /** When no period of the worker contains the start day, the position check passes. */
  lemma UncoveredDayPassesPositionCheck(s: Store, v: VacHistory)
    requires forall i :: 0 <= i < |s.posHistory| && s.posHistory[i].worker == v.worker
                         ==> !Covers(s.posHistory[i], v.startDate)
    ensures !IsWrongPosition(SaveVacation(s, v))
  {
  }

  /** Two periods of the worker that both contain the start day but record
      different positions reject the vacation whichever position it names: the
      check does not let the last matching period decide. */
  lemma OverlappingPeriodsRejectEveryPosition(s: Store, v: VacHistory, i: nat, j: nat)
    requires HasKey(s.workers, v.worker, WorkerKey) && Find(s.positions, v.thatTimePos, PositionKey).Some?
    requires i < |s.posHistory| && j < |s.posHistory|
    requires s.posHistory[i].worker == v.worker && Covers(s.posHistory[i], v.startDate)
    requires s.posHistory[j].worker == v.worker && Covers(s.posHistory[j], v.startDate)
    requires s.posHistory[i].workerPos != s.posHistory[j].workerPos
    ensures IsWrongPosition(SaveVacation(s, v))
  {
    if s.posHistory[i].workerPos != v.thatTimePos {
      assert PositionConflict(s.posHistory, v);
    } else {
      assert s.posHistory[j].workerPos != v.thatTimePos;
      assert PositionConflict(s.posHistory, v);
    }
  }

  /** A worker moved from position `p1` to `p2` on day `change`: a vacation from
      that day on that names `p1` is refused with `p2` as the expected position,
      and one that names `p2` passes the position check. */
  lemma PromotionDecidesPosition(s: Store, v: VacHistory, first: nat, change: int, p1: nat, p2: nat, id1: nat, id2: nat)
    requires HasKey(s.workers, v.worker, WorkerKey)
    requires Find(s.positions, p1, PositionKey).Some? && Find(s.positions, p2, PositionKey).Some?
    requires p1 != p2
    requires s.posHistory == [PosHistory(id1, v.worker, p1, first, Some(change)), PosHistory(id2, v.worker, p2, change, None)]
    requires v.startDate >= change
    ensures SaveVacation(s, v.(thatTimePos := p1)) == Err(WrongPosition(p2))
    ensures !IsWrongPosition(SaveVacation(s, v.(thatTimePos := p2)))
  {
    var v1 := v.(thatTimePos := p1);
    assert !Covers(s.posHistory[0], v1.startDate);
    assert FirstPositionConflict(s.posHistory, v1) == Some(p2) by {
      assert s.posHistory[1..] == [PosHistory(id2, v.worker, p2, change, None)];
    }
  }
}

=== FILE: worker_save.dfy ===
/**
 Saving a worker. Before the row is written three checks run, in this order:
 the salary must match the salary rule for every position named like the
 worker's position; the department must hold fewer than `MaxWorkers` stored
 workers; and fewer than `MaxOnVacation` of them may have status `OnVacation`.
 The counts are taken over the stored rows only, so the row being updated is
 counted with its stored values and the candidate's own status plays no part.
 */
module WorkerSave {
  import opened Records
  import opened Rows
  import opened SalaryRule

  /** Number of stored workers assigned to department `d`. */
  function HeadCount(ws: seq<Worker>, d: nat): (r: nat)
    ensures r <= |ws|
    ensures r == 0 <==> forall i :: 0 <= i < |ws| ==> ws[i].depart != d
  {
    if |ws| == 0 then 0
    else (if ws[0].depart == d then 1 else 0) + HeadCount(ws[1..], d)
  }

  /** Number of stored workers of department `d` whose status is `OnVacation`. */
  function VacCount(ws: seq<Worker>, d: nat): (r: nat)
    ensures r <= HeadCount(ws, d)
    ensures r == 0 <==> forall i :: 0 <= i < |ws| && ws[i].depart == d ==> ws[i].status != OnVacation
  {
    if |ws| == 0 then 0
    else (if ws[0].depart == d && ws[0].status == OnVacation then 1 else 0) + VacCount(ws[1..], d)
  }

  lemma {:induction false} HeadCountAppend(a: seq<Worker>, b: seq<Worker>, d: nat)
    ensures HeadCount(a + b, d) == HeadCount(a, d) + HeadCount(b, d)
  {
    if |a| == 0 {
      assert a + b == b;
    } else {
      assert (a + b)[1..] == a[1..] + b;
      HeadCountAppend(a[1..], b, d);
    }
  }

  lemma {:induction false} VacCountAppend(a: seq<Worker>, b: seq<Worker>, d: nat)
    ensures VacCount(a + b, d) == VacCount(a, d) + VacCount(b, d)
  {
    if |a| == 0 {
      assert a + b == b;
    } else {
      assert (a + b)[1..] == a[1..] + b;
      VacCountAppend(a[1..], b, d);
    }
  }

  /** Some position named `name` prescribes a salary other than `salary`. */
  predicate SalaryMismatch(ps: seq<Position>, name: string, experience: nat, salary: int)
  {
    exists i :: 0 <= i < |ps| && ps[i].name == name && salary != ExpectedSalary(ps[i].salary, experience)
  }

  /** The loop over the positions named `name`: the salary the first disagreeing
      one prescribes, or `None` when all of them agree with `salary`. */
  function FirstSalaryMismatch(ps: seq<Position>, name: string, experience: nat, salary: int): (r: Option<int>)
    ensures r.Some? <==> SalaryMismatch(ps, name, experience, salary)
    ensures r.Some? ==> r.value != salary
    ensures r.Some? ==> exists i :: 0 <= i < |ps| && ps[i].name == name
                          && r.value == ExpectedSalary(ps[i].salary, experience)
                          && !SalaryMismatch(ps[..i], name, experience, salary)
  {
    if |ps| == 0 then None
    else if ps[0].name == name && salary != ExpectedSalary(ps[0].salary, experience) then
      assert ps[..0] == [];
      Some(ExpectedSalary(ps[0].salary, experience))
    else
      var r := FirstSalaryMismatch(ps[1..], name, experience, salary);
      assert r.Some? ==> SalaryMismatch(ps, name, experience, salary) by {
        if r.Some? {
          var j :| 0 <= j < |ps[1..]| && ps[1..][j].name == name && salary != ExpectedSalary(ps[1..][j].salary, experience);
          assert ps[j + 1] == ps[1..][j];
        }
      }
      assert SalaryMismatch(ps, name, experience, salary) ==> r.Some? by {
        if SalaryMismatch(ps, name, experience, salary) {
          var j :| 0 <= j < |ps| && ps[j].name == name && salary != ExpectedSalary(ps[j].salary, experience);
          assert j != 0;
          assert ps[1..][j - 1] == ps[j];
        }
      }
      assert r.Some? ==> exists i :: 0 <= i < |ps| && ps[i].name == name
                          && r.value == ExpectedSalary(ps[i].salary, experience)
                          && !SalaryMismatch(ps[..i], name, experience, salary) by {
        if r.Some? {
          var j :| 0 <= j < |ps[1..]| && ps[1..][j].name == name
                   && r.value == ExpectedSalary(ps[1..][j].salary, experience)
                   && !SalaryMismatch(ps[1..][..j], name, experience, salary);
          assert ps[j + 1] == ps[1..][j];
          forall k | 0 <= k < j + 1 && ps[k].name == name
            ensures salary == ExpectedSalary(ps[k].salary, experience)
          {
            if k > 0 {
              assert ps[k] == ps[1..][..j][k - 1];
            }
          }
          assert forall k :: 0 <= k < j + 1 ==> ps[..j + 1][k] == ps[k];
        }
      }
      r
  }

  /** The worker's position is stored and every position named like it agrees with the salary. */
  predicate PassesSalaryCheck(s: Store, w: Worker)
  {
    && Find(s.positions, w.pos, PositionKey).Some?
    && !SalaryMismatch(s.positions, Find(s.positions, w.pos, PositionKey).value.name, w.experience, w.salary)
  }

  /** The department exists and neither department limit has been reached. */
  predicate PassesDepartmentChecks(s: Store, w: Worker)
  {
    && Find(s.departments, w.depart, DepartmentKey).Some?
    && HeadCount(s.workers, w.depart) < MaxWorkers
    && VacCount(s.workers, w.depart) < MaxOnVacation
  }

  /** `Worker.save`: the checks in source order, then the upsert of `w` by id. */
  function SaveWorker(s: Store, w: Worker): (r: Result<Store, SaveError>)
    ensures Find(s.positions, w.pos, PositionKey).None? ==> r == Err(NoSuchPosition)
    ensures (r.Err? && r.error.WrongSalary?) <==>
              (Find(s.positions, w.pos, PositionKey).Some? && !PassesSalaryCheck(s, w))
    ensures (r.Err? && r.error.WrongSalary?) ==>
              && Find(s.positions, w.pos, PositionKey).Some?
              && r.error.expectedSalary != w.salary
              && exists i :: 0 <= i < |s.positions|
                             && s.positions[i].name == Find(s.positions, w.pos, PositionKey).value.name
                             && r.error.expectedSalary == ExpectedSalary(s.positions[i].salary, w.experience)
    ensures r == Err(NoSuchDepartment) <==>
              (PassesSalaryCheck(s, w) && Find(s.departments, w.depart, DepartmentKey).None?)
    ensures r == Err(DepartmentFull) <==>
              (PassesSalaryCheck(s, w) && Find(s.departments, w.depart, DepartmentKey).Some?
               && HeadCount(s.workers, w.depart) >= MaxWorkers)
    ensures r == Err(VacationQuotaFull) <==>
              (PassesSalaryCheck(s, w) && Find(s.departments, w.depart, DepartmentKey).Some?
               && HeadCount(s.workers, w.depart) < MaxWorkers
               && VacCount(s.workers, w.depart) >= MaxOnVacation)
    ensures r.Ok? <==> PassesSalaryCheck(s, w) && PassesDepartmentChecks(s, w)
    ensures r.Ok? ==> && r.value.departments == s.departments
                      && r.value.positions == s.positions
                      && r.value.posHistory == s.posHistory
                      && r.value.vacHistory == s.vacHistory
                      && StoredExactly(s.workers, r.value.workers, w, WorkerKey)
    ensures r.Ok? ==> w.salary == ExpectedSalary(Find(s.positions, w.pos, PositionKey).value.salary, w.experience)
  {
    match Find(s.positions, w.pos, PositionKey)
    case None => Err(NoSuchPosition)
    case Some(p) =>
      match FirstSalaryMismatch(s.positions, p.name, w.experience, w.salary)
      case Some(expected) => Err(WrongSalary(expected))
      case None =>
        if Find(s.departments, w.depart, DepartmentKey).None? then Err(NoSuchDepartment)
        else if HeadCount(s.workers, w.depart) >= MaxWorkers then Err(DepartmentFull)
        else if VacCount(s.workers, w.depart) >= MaxOnVacation then Err(VacationQuotaFull)
        else
          assert p in s.positions;
          Ok(s.(workers := Upsert(s.workers, w, WorkerKey)))
  }

  /** The quota loop as written: count the department's workers on vacation and
      stop as soon as the count reaches the limit. */
  method ScanVacationQuota(ws: seq<Worker>, d: nat) returns (full: bool)
    ensures full <==> VacCount(ws, d) >= MaxOnVacation
  {
    var counter := 0;
    var i := 0;
    while i < |ws|
      invariant 0 <= i <= |ws|
      invariant counter == VacCount(ws[..i], d)
      invariant counter < MaxOnVacation
    {
      assert ws[..i + 1] == ws[..i] + [ws[i]];
      VacCountAppend(ws[..i], [ws[i]], d);
      if ws[i].depart == d && ws[i].status == OnVacation {
        counter := counter + 1;
        if counter >= MaxOnVacation {
          assert ws == ws[..i + 1] + ws[i + 1..];
          VacCountAppend(ws[..i + 1], ws[i + 1..], d);
          return true;
        }
      }
      i := i + 1;
    }
    assert ws[..i] == ws;
    return false;
  }

  /** The verdict of a save, forgetting the new store. */
  function Verdict(r: Result<Store, SaveError>): Option<SaveError>
  {
    if r.Ok? then None else Some(r.error)
  }

  /** The quota check ignores the status the candidate is being saved with. */
  lemma QuotaIgnoresCandidateStatus(s: Store, w: Worker, status: string)
    ensures Verdict(SaveWorker(s, w)) == Verdict(SaveWorker(s, w.(status := status)))
  {
  }

  /** In a department with `MaxOnVacation` workers on vacation, any worker is
      refused, even one saved with status `OnDuty`; so a stored worker on
      vacation cannot be saved back on duty. */
  lemma {:induction false} FullQuotaBlocksReturnFromVacation(s: Store, w: Worker)
    requires PassesSalaryCheck(s, w)
    requires Find(s.departments, w.depart, DepartmentKey).Some?
    requires HeadCount(s.workers, w.depart) < MaxWorkers
    requires VacCount(s.workers, w.depart) == MaxOnVacation
    ensures SaveWorker(s, w.(status := OnDuty)) == Err(VacationQuotaFull)
  {
    assert Find(s.positions, w.(status := OnDuty).pos, PositionKey) == Find(s.positions, w.pos, PositionKey);
  }

  /** Overwriting rows that stay in their department leaves every headcount as it was. */
  lemma {:induction false} OverwriteKeepsHeadCount(ws: seq<Worker>, w: Worker, d: nat)
    requires forall i :: 0 <= i < |ws| && ws[i].id == w.id ==> ws[i].depart == w.depart
    ensures HeadCount(Overwrite(ws, w, WorkerKey), d) == HeadCount(ws, d)
  {
    if |ws| > 0 {
      var rest := Overwrite(ws, w, WorkerKey);
      assert rest[1..] == Overwrite(ws[1..], w, WorkerKey);
      assert forall i :: 0 <= i < |ws[1..]| && ws[1..][i].id == w.id ==> ws[1..][i].depart == w.depart by {
        forall i | 0 <= i < |ws[1..]| && ws[1..][i].id == w.id
          ensures ws[1..][i].depart == w.depart
        {
          assert ws[1..][i] == ws[i + 1];
        }
      }
      OverwriteKeepsHeadCount(ws[1..], w, d);
    }
  }

  /** The capacity check counts the stored copy of the worker being updated: in a
      full department an update that keeps the worker there is refused, although
      it would leave the headcount unchanged. */
  lemma UpdateInFullDepartmentRefused(s: Store, w: Worker)
    requires PassesSalaryCheck(s, w)
    requires Find(s.departments, w.depart, DepartmentKey).Some?
    requires HasKey(s.workers, w.id, WorkerKey)
    requires forall i :: 0 <= i < |s.workers| && s.workers[i].id == w.id ==> s.workers[i].depart == w.depart
    requires HeadCount(s.workers, w.depart) == MaxWorkers
    ensures SaveWorker(s, w) == Err(DepartmentFull)
    ensures HeadCount(Upsert(s.workers, w, WorkerKey), w.depart) == MaxWorkers
  {
    assert HasKey(s.workers, w.id, WorkerKey) by {
      var i :| 0 <= i < |s.workers| && s.workers[i].id == w.id;
      assert WorkerKey(s.workers[i]) == w.id;
    }
    OverwriteKeepsHeadCount(s.workers, w, w.depart);
  }

  /** A new worker saved into a department holding `MaxWorkers - 1` workers is
      accepted, and from then on every save into that department is refused. */
  lemma LastPlaceFillsDepartment(s: Store, w: Worker, next: Worker)
    requires PassesSalaryCheck(s, w)
    requires Find(s.departments, w.depart, DepartmentKey).Some?
    requires HeadCount(s.workers, w.depart) == MaxWorkers - 1
    requires VacCount(s.workers, w.depart) < MaxOnVacation
    requires !HasKey(s.workers, w.id, WorkerKey)
    requires next.depart == w.depart
    ensures SaveWorker(s, w).Ok?
    ensures !SaveWorker(SaveWorker(s, w).value, next).Ok?
  {
    assert !HasKey(s.workers, w.id, WorkerKey);
    HeadCountAppend(s.workers, [w], w.depart);
    assert HeadCount([w], w.depart) == 1;
  }

  /** With `MaxOnVacation - 1` workers on vacation a department still accepts a
      new worker on vacation; afterwards every save into it is refused. */
  lemma LastVacationPlaceLocksDepartment(s: Store, w: Worker, next: Worker)
    requires PassesSalaryCheck(s, w)
    requires Find(s.departments, w.depart, DepartmentKey).Some?
    requires HeadCount(s.workers, w.depart) < MaxWorkers
    requires VacCount(s.workers, w.depart) == MaxOnVacation - 1
    requires !HasKey(s.workers, w.id, WorkerKey)
    requires w.status == OnVacation
    requires next.depart == w.depart
    ensures SaveWorker(s, w).Ok?
    ensures !SaveWorker(SaveWorker(s, w).value, next).Ok?
  {
    assert !HasKey(s.workers, w.id, WorkerKey);
    VacCountAppend(s.workers, [w], w.depart);
    assert VacCount([w], w.depart) == 1;
  }
}
